=== FILE: README.md ===
# Maze Runner game engine, modelled in Dafny

This project models the game-state engine of Maze Runner, a turn-based grid
game. A player walks through a sequence of mazes, picks up items (coins,
potions, water, apples, honey), and keeps three survival stats in range
(health, hunger, thirst). A level's doors open once every coin on that level
has been collected. A move to a position the maze cannot look up moves to the
next level, and from the last level it wins the game. Row or column -1 wraps to
the last row or column, so only moves past the bottom or right edge, or onto a
rejected row, leave the grid at once.

The model is functional. Tiles, items, inventories, players, mazes, levels and
the game state (`Game.Model`) are immutable datatypes. Every engine operation is
a pure function from state to state. The constants of the game (maxima, lava
damage, item amounts and the characters of the level file) are not part of the
model. They are a `Constants.Config` parameter, and `Config.Valid()` assumes
only three things: positive maxima, non-negative lava damage, and ten distinct
characters.

The modules follow the engine's structure:

- `Basics`: option and result types, positions, clamping, and Python list indexing.
- `Constants`: the game constants, passed as one parameter.
- `Tiles`: wall, floor, lava and door tiles.
- `Items`: item kinds, names and level-file characters.
- `Inventories`: the inventory, keyed by item name, oldest item first.
- `Players`: the player's stats, stat changes, item effects, and the use-item step.
- `Mazes`: maze rows, tile lookup and door unlocking.
- `Levels`: level rows, ground items, the player start, and the coin-driven door check.
- `Game`: the game state, moves, pickups, level-up and the loss check.
- `Turns`: what a move does in each case, and the invariants a move keeps.
- `Scenarios`: walk-throughs on small levels.

Behaviour modelled as the code does it, including places where it may
surprise a reader:

- Picking an item up only stores it; its effect is applied only when it is used (a2.py:863).
- The level-up flag is set and never cleared (a2.py:806, 816).
- Tile lookup uses Python list indexing, so row or column -1 selects the last row or column.
  - Any failed lookup triggers level-up, including a lookup into the empty row stored for a rejected text row (a2.py:574, 834-854).
  - The stored position is the target as computed, not normalised (a2.py:839).
  - The pickup test compares that unnormalised target with the item positions, which are never negative (a2.py:845). So an item reached through a negative index stays on the ground and out of the inventory, and a coin reached that way keeps the doors locked (`Scenarios.WrappedMoveMissesItem`).
- A maze row of the wrong width is not an error: the maze stores an empty tile row and an empty text row (a2.py:521-541).
- The row-count check uses `<=`, so the maze accepts one row more than its declared count (`Scenarios.ExtraRowAccepted`).
- A level registers the items and player marker of a row even when its maze rejects that row (a2.py:641-654).
- All doors of a maze share one state (a2.py:496, 529, 553). This is modelled as the maze's `doorsUnlocked` flag.
- The door check runs twice on every accepted move: before the pickup and after it (a2.py:843, 865).
  - So the doors of a level without coins stay locked until the first accepted move on that level.
- Winning takes one more step than stepping onto the open door: the player must step off the grid (`Scenarios.CoinOpensDoorAndWins`).
- The `lost` flag is only set by the loss check (a2.py:774-786). The game loop runs that check after moves, not after item use.

## Model

| member | source | states |
|---|---|---|
| Basics.PyIndex | a2.py:574 | a list index selects an element exactly when it lies in [-n, n); the element it selects is congruent to it modulo n |
| Tiles.Blocking | a2.py:47-142 | a wall always blocks; floor and lava never block; a door blocks exactly while it is locked |
| Tiles.Damage | a2.py:119-127 | lava deals exactly the lava damage and every other tile none; with non-negative lava damage no tile deals negative damage |
| Tiles.Id | a2.py:47-142 | a wall renders as the wall character and lava as the lava character; a tile renders as the door character exactly when it is a locked door, and as the floor character exactly when it is floor or an unlocked door |
| Tiles.OfChar | a2.py:521-537 | a level-file character becomes a wall, door or lava tile exactly when it is that tile's character; anything else becomes floor |
| Tiles.UnlockedDoorIsEmpty | a2.py:129-142 | an unlocked door is non-blocking, deals no damage and renders as floor, like an empty tile |
| Tiles.OfCharMeaning | a2.py:100-136 | a level-file character read as a tile renders back as itself for wall, door and lava, and as floor otherwise; it blocks exactly for walls and locked doors; only lava deals damage |
| Items.KindOfChar | a2.py:656-676 | a character places an item exactly when it is one of the five item characters, and the item's character is that character |
| Items.KindOfCharId | a2.py:656-676 | reading an item kind's own character gives that kind back |
| Items.UsableKind | a2.py:18-21 | exactly the names Water, Honey, Potion and Apple are usable; each names its own kind; a coin is never usable |
| Items.NameInjective | a2.py:163-168 | two kinds have the same class name only if they are the same kind, so the inventory key determines the kind |
| Inventories.AddItem | a2.py:407-423 | the item is appended after everything already held under its name; that name's count rises by one; other names are untouched; validity is kept |
| Inventories.RemoveItem | a2.py:435-453 | an absent name returns None and no change; otherwise it returns the oldest item of that name and keeps the rest in order; the key is dropped exactly when its last item goes; other names are untouched; validity is kept |
| Inventories.AddThenRemove | a2.py:407-453 | add then remove is first-in first-out: removing right after an add returns the oldest item, the same as removing first and adding after; with nothing held, it returns the added item and restores the inventory |
| Inventories.FromItems | a2.py:394-405 | an inventory built from a list of items is valid, and no name holds more items than the list has |
| Inventories.FromItemsIsFilter | a2.py:394-405 | an inventory built from a list of items holds, under each name, exactly the listed items of that name in list order, and is valid |
| Players.NewPlayer | a2.py:216-223 | a new player has full health, zero hunger and thirst, an empty inventory, and the given start |
| Players.ChangeHunger | a2.py:246-255 | for any change, hunger ends in [0, maxHunger] and equals the clamped sum; nothing else changes |
| Players.ChangeThirst | a2.py:257-266 | for any change, thirst ends in [0, maxThirst] and equals the clamped sum; nothing else changes |
| Players.ChangeHealth | a2.py:268-277 | for any change, health ends in [0, maxHealth] and equals the clamped sum; nothing else changes |
| Players.AddItem | a2.py:287-290 | the item is added to the inventory as `Inventories.AddItem` does: appended last under its name, other names untouched, that name's count up by one; only the inventory changes; validity is kept |
| Players.Apply | a2.py:303-389 | a potion moves only health, water only thirst, apple and honey only hunger, each by its own amount and clamped; a coin changes nothing; position and inventory are unchanged |
| Players.UseItem | a2.py:957-985 | a name that is no usable kind is reported as not usable; a usable kind the player holds none of is reported as unavailable; in both cases the player is unchanged; otherwise the kind's effect is applied and the oldest item of that name leaves the inventory (count minus one) |
| Mazes.NewMaze | a2.py:481-498 | a new maze has the given dimensions, no rows, a locked door, and satisfies the text invariant |
| Mazes.AddRow | a2.py:507-541 | the maze always grows by one row and keeps earlier rows. A row of the declared width is accepted while at most the declared row count exists; its tiles block and damage as its characters say, and its text is the row with non-terrain characters as floor. Any other row is stored as an empty tile row with empty text. The text invariant is kept |
| Mazes.GetTile | a2.py:565-574 | a lookup succeeds exactly when the row index lies in [-rows, rows) and the column index lies in [-len, len) for the row it selects; the tile it returns is the one at the indices Python list indexing selects |
| Mazes.GetTileInside | a2.py:565-574 | inside the grid, a lookup returns the stored tile |
| Mazes.GetTileWraps | a2.py:574 | for every row, row index i - rows looks up the same tile as row i, and column -j selects the j-th column from the end of that row |
| Mazes.UnlockDoor | a2.py:550-563 | after unlocking, tiles are unchanged and only walls block; every rendered row keeps its length, contains no door character, and keeps every non-door character; the text invariant is kept |
| Mazes.UnlockRendersRow | a2.py:553-561 | replacing door characters in a row's text gives the text of the row with its doors unlocked |
| Mazes.UnlockDoorIdempotent | a2.py:550-563 | unlocking twice is the same as unlocking once |
| Levels.NewLevel | a2.py:596-609 | a new level keeps the given dimensions and has no items, no start, no rows and an empty maze of those dimensions |
| Levels.AddEntity | a2.py:656-676 | an item character puts an item of its kind at the position, replacing any item there; other characters change nothing |
| Levels.AddPlayerStart | a2.py:706-713 | the start becomes the given position and nothing else changes |
| Levels.ScanRow | a2.py:637-650 | scanning a row's characters leaves the maze, the row count and the dimensions alone; its effect on items and start is stated by the next two lemmas |
| Levels.ScanRowItems | a2.py:637-650 | scanning a row prefix registers exactly its item characters, each as an item of its kind at its own position on the next row; other positions keep their items |
| Levels.ScanRowStart | a2.py:641-650 | scanning a row prefix keeps the start when it has no player marker, and otherwise sets it to the last marker |
| Levels.AddRow | a2.py:631-654 | the row count rises by one and the maze gets the row, whether or not the maze accepts it. The row's items are registered at their positions over earlier ones, and the last player marker in the row becomes the start |
| Levels.RemoveItem | a2.py:694-704 | exactly the given position leaves the ground items; nothing else changes |
| Levels.HasCoinIsCoinLeft | a2.py:623-626 | the level's coin test by item character holds exactly when an item of kind Coin is on the ground |
| Levels.AttemptUnlockDoor | a2.py:618-629 | the doors end up open exactly when they already were open or no coin is on the ground; if a coin is left, nothing changes; once no coin is left, no rendered row has a door character; the level invariant is kept |
| Levels.AttemptUnlockDoorIdempotent | a2.py:618-629 | trying to unlock twice is the same as trying once |
| Levels.Build | a2.py:34-43 | a level built from its dimensions and text rows keeps the dimensions, counts one row and one maze row per text row, and has its door locked |
| Levels.BuildInv | a2.py:596-654 | a level built from text rows has one maze row per text row, locked doors, and the level invariant |
| Game.NewModel | a2.py:747-763 | with no levels, building a game fails; otherwise the game starts on level 0 with a fresh player at that level's start, no flags set and a zero move count; when every level satisfies the level invariant (as `Levels.BuildInv` gives for built levels), the game satisfies the state invariant |
| Game.LevelUp | a2.py:795-808 | on the last level it sets won and changes nothing else; otherwise it moves to the next level, puts the player on that level's start and sets the level-up flag; the level index stays in range; stats and inventory are unchanged; no flag is cleared |
| Game.HasLost | a2.py:774-786 | lost is set exactly when it already was set, health is at most 0, hunger is at least maxHunger, or thirst is at least maxThirst; nothing else changes |
| Game.AttemptCollectItem | a2.py:856-865 | exactly the item's position leaves the current level's ground items, and the item is appended to the inventory under its name (count plus one). No stat or position changes. The doors end up open exactly when they already were open or no coin is left. Other levels are untouched |
| Game.Tick | a2.py:848-852 | at the fifth counted move, hunger and thirst rise by one (clamped) and the count restarts at 0; otherwise nothing changes |
| Game.Enter | a2.py:838-843 | entering a non-blocking tile puts the player on it, applies the two clamped health changes (-1, then minus the tile's damage), counts the move and runs the door check on the current level; other levels, the flags and the level index are unchanged; stats stay in range and the count reaches at most five |
| Game.Pickup | a2.py:845-846 | with no item at the target nothing changes; otherwise the item is collected as `Game.AttemptCollectItem` states; position, stats, the move count, the flags and other levels stay; consistency is kept |
| Game.Step | a2.py:838-852 | an accepted move keeps the level index, leaves other levels unchanged, and keeps stats in range, the move count below five, the inventory valid and every level consistent |
| Game.MovePlayer | a2.py:818-854 | a player without a position fails; otherwise the level index stays in range, the level count is fixed, lost is unchanged, and won and the level-up flag are never cleared |
| Turns.MoveBlocked | a2.py:834-838 | a move onto a blocking tile leaves the state exactly as it was |
| Turns.MoveOffGrid | a2.py:834-854 | a move the maze cannot look up levels up without changing stats, inventory, ground items or the move count; on the last level it wins and leaves the position and level index unchanged |
| Turns.HealthCost | a2.py:840-841 | the two health changes of a move, by -1 and by minus a non-negative damage, give max(0, health - 1 - damage) |
| Turns.MoveAccepted | a2.py:838-852 | an accepted move puts the player on the target and sets health to max(0, health - 1 - damage). It counts the move; at the fifth, hunger and thirst rise by one (clamped) and the count restarts. Flags, the level index and every other level stay |
| Turns.MoveAcceptedPickup | a2.py:843-865 | after an accepted move, the target (and only it) has left the ground items; an item there has been appended to the inventory, and with no item there the inventory is unchanged. The level's doors are open exactly when no coin is left on its ground. Other levels are unchanged |
| Turns.MovePreservesInv | a2.py:818-854 | every successful move keeps the state invariant |
| Turns.Turn | a2.py:991-997 | a move command followed by the loss check fails exactly when the player has no position; lost is then set exactly when it was already set or the new stats are out of bounds; won and the level-up flag are never cleared; the state invariant is kept |
| Turns.Play | a2.py:952-1002 | a run of no commands changes nothing; a non-empty run fails when the player has no position; a successful run keeps the level index in range and the level count |
| Turns.PlayFirstTurn | a2.py:991-1002 | a non-empty run succeeds only if its first turn does; a first turn that leaves the game lost or won ends the run with that turn's state; otherwise the run continues from the state the first turn leaves |
| Turns.PlayKeepsInvAndFlags | a2.py:952-1002 | over any run of move commands, the state invariant holds throughout, and won, lost and the level-up flag, once set, stay set |
| Scenarios.CoinDoorLevel | a2.py:631-676 | the row "player, coin, door" gives a start at column 0, one coin at column 1, floor-floor-door tiles, and locked doors |
| Scenarios.CoinOpensDoorAndWins | a2.py:818-865 | on that level: the first step right collects the coin and opens the door, changing only health among the stats; the second step reaches the door cell; the third leaves the grid and wins, with the player left on the door cell |
| Scenarios.WrappedMoveMissesItem | a2.py:834-846 | on the row "player, floor, coin", a move by (0, -1) wraps onto the coin's cell and is accepted, but the player is stored at (0, -1); the coin stays on the ground at (0, 2), the inventory stays empty and the doors stay locked |
| Scenarios.ExtraRowAccepted | a2.py:521-541 | a maze declared with one row of three columns accepts two rows of width three; a third row of the wrong width is stored as an empty row with empty text |

## Left out

- Reading the level file, splitting lines and `int()` parsing in `load_game` (a2.py:25-44). This is file I/O. A level is instead built by `Levels.Build` from its dimensions and text rows, which is the sequence of `Level.add_row` calls `load_game` makes.
- `MazeRunner`, `main`, `input`/`print` and the text display (a2.py:923-1016). This is console I/O. Only the use-item step (`Players.UseItem`) and a move followed by the loss check (`Turns.Turn`, `Turns.Play`) are modelled, with the run ending once the game is lost or won. `Turns.Play` plays only move commands; item use between moves is `Players.UseItem` on its own.
- Players.UseItem: matches the item name exactly, where the game loop looks for each usable name as a substring of the command. That is text-command parsing.
- `__str__` and `__repr__` of every class. These are presentation only. The maze's rendered rows are kept, because door unlocking rewrites them.
- Plain accessors (`get_dimensions`, `get_tiles`, `get_items`, `get_player_start`, `get_level`, `get_current_maze`, `get_current_items`, `get_player`, `get_player_stats`, `get_player_inventory`, `get_inventory`, `has_won`, `did_level_up` and the stat getters). These are datatype fields or field reads in the model.
- The values of the game constants and the `MOVE_DELTAS` table. Their module is not part of this model. `Game.MovePlayer` takes any delta, and every property holds for every delta.
- Python's class hierarchy (`Entity`, `DynamicEntity`, `Food`), dynamic dispatch, and object identity. Tiles and items are closed datatypes. The one place identity matters, the door shared by all door cells of a maze, is the maze's `doorsUnlocked` flag.
- The bare `except` in `move_player`. Inside the `try`, only the tile lookup can raise, so it is modelled as `Mazes.GetTile` returning `None`.
- Turns.HealthCost: proved only for non-negative damage, which `Config.Valid()` assumes of the lava damage.
- Players.ChangeHealth: the range bound is proved under `Config.Valid()`, that is, for positive maxima. The source takes its maxima from constants that are not part of this model.

=== FILE: basics.dfy ===
/** Shared vocabulary of the game model: optional values, results, grid
    positions, clamping, and the index rule of Python lists. */
module Basics {

  datatype Option<+T> = None | Some(value: T)

  datatype Result<+T, +E> = Ok(value: T) | Err(error: E)

  /** A (row, column) position. Components may be negative: the game never
      normalises a position it stores. */
  type Pos = (int, int)

  function Min(a: int, b: int): int { if a <= b then a else b }

  function Max(a: int, b: int): int { if a <= b then b else a }

  /** The value of `x` forced into the range [0, hi]. */
  function Clamp(x: int, hi: int): int
  {
    Min(hi, Max(0, x))
  }

  /** Which element `xs[i]` selects in a Python list of length `n`:
      element `i` for 0 <= i < n, element `n + i` for -n <= i < 0,
      and an IndexError (None) otherwise. */
  function PyIndex(n: nat, i: int): (r: Option<nat>)
    ensures r.Some? <==> 0 <= n + i && i < n
    ensures r.Some? ==> r.value < n && r.value % n == i % n
  {
    if 0 <= i < n then Some(i)
    else if 0 <= n + i && i < 0 then Some(n + i)
    else None
  }
}

/** The game's named constants. Their values live in a module that is not
    part of this model, so they are a parameter of every operation. */
module Constants {

  datatype Config = Config(
    maxHealth: int,
    maxHunger: int,
    maxThirst: int,
    lavaDamage: int,
    potionAmount: int,
    waterAmount: int,
    appleAmount: int,
    honeyAmount: int,
    // characters of the level file and of the rendered maze
    wall: char,
    empty: char,
    lava: char,
    door: char,
    coin: char,
    potion: char,
    water: char,
    apple: char,
    honey: char,
    player: char)
  {
    /** What the model assumes of the constants: positive maxima, lava that
        does not heal, and ten distinct characters. */
    predicate Valid() {
      && maxHealth > 0 && maxHunger > 0 && maxThirst > 0
      && lavaDamage >= 0
      && DistinctChars()
    }

    predicate DistinctChars() {
      && wall != empty && wall != lava && wall != door && wall != coin && wall != potion
      && wall != water && wall != apple && wall != honey && wall != player
      && empty != lava && empty != door && empty != coin && empty != potion
      && empty != water && empty != apple && empty != honey && empty != player
      && lava != door && lava != coin && lava != potion && lava != water
      && lava != apple && lava != honey && lava != player
      && door != coin && door != potion && door != water && door != apple
      && door != honey && door != player
      && coin != potion && coin != water && coin != apple && coin != honey && coin != player
      && potion != water && potion != apple && potion != honey && potion != player
      && water != apple && water != honey && water != player
      && apple != honey && apple != player
      && honey != player
    }
  }
}

=== FILE: game.dfy ===
/** The game state and the resolution of one turn: moving, picking items up,
    levelling up, and the loss check. */
module Game {
  import opened Basics
  import opened Constants
  import opened Tiles
  import Items
  import Inventories
  import opened Players
  import Mazes
  import Levels

  /** Every this many accepted moves, hunger and thirst rise by one. */
  const TimeToChange: nat := 5

  datatype Model = Model(
    levels: seq<Levels.Level>,
    current: nat,
    player: Player,
    won: bool,
    lost: bool,
    leveledUp: bool,
    validMoves: nat)

  /** Building a game from no levels fails: there is no first level to
      start the player on. */
  datatype ModelError = NoLevels

  /** Moving a player that has no position fails: the level the player is
      on has no start marker. */
  datatype MoveError = NoPosition

  /** The current level index selects a level. */
  predicate Indexed(m: Model) {
    m.current < |m.levels|
  }

  /** Stats in range, a valid inventory and consistent levels. */
  predicate Consistent(m: Model, cfg: Config) {
    && 0 < |m.levels| && Indexed(m)
    && StatsInRange(m.player, cfg)
    && Inventories.Valid(m.player.inventory)
    && forall i | 0 <= i < |m.levels| :: Levels.Inv(m.levels[i], cfg)
  }

  /** What every reachable game state satisfies: it is consistent, and
      between moves the move count is below `TimeToChange`. */
  predicate Inv(m: Model, cfg: Config) {
    Consistent(m, cfg) && m.validMoves < TimeToChange
  }

  function Level(m: Model): Levels.Level
    requires Indexed(m)
  {
    m.levels[m.current]
  }

  /** The state with the current level replaced by `lv`. */
  function WithLevel(m: Model, lv: Levels.Level): (r: Model)
    requires Indexed(m)
    ensures Indexed(r) && Level(r) == lv
  {
    m.(levels := m.levels[m.current := lv])
  }

  /** A new game on the given levels: the player starts at the first level's
      start with full health, and no flag is set. */
  function NewModel(levels: seq<Levels.Level>, cfg: Config): (r: Result<Model, ModelError>)
    requires cfg.Valid()
    ensures r.Err? <==> |levels| == 0
    ensures r.Ok? ==>
              && r.value.levels == levels && r.value.current == 0
              && r.value.player == NewPlayer(levels[0].start, cfg)
              && !r.value.won && !r.value.lost && !r.value.leveledUp && r.value.validMoves == 0
    ensures r.Ok? && (forall i | 0 <= i < |levels| :: Levels.Inv(levels[i], cfg)) ==> Inv(r.value, cfg)
  {
    if |levels| == 0 then Err(NoLevels)
    else Ok(Model(levels, 0, NewPlayer(levels[0].start, cfg), false, false, false, 0))
  }

  /** Leaving the current level: past the last level the game is won and
      nothing else changes; otherwise the next level becomes current and the
      player is put on its start. Only the position changes on the player,
      and the level-up flag is set and never cleared. */
  function LevelUp(m: Model): (r: Model)
    requires Indexed(m)
    ensures Indexed(r) && r.levels == m.levels
    ensures r.player == m.player.(pos := r.player.pos)
    ensures r.lost == m.lost && r.validMoves == m.validMoves
    ensures m.won ==> r.won
    ensures m.leveledUp ==> r.leveledUp
    ensures m.current == |m.levels| - 1 ==> r == m.(won := true)
    ensures m.current < |m.levels| - 1 ==>
              && r.current == m.current + 1
              && r.player.pos == m.levels[m.current + 1].start
              && r.leveledUp && r.won == m.won
  {
    if m.current == |m.levels| - 1 then m.(won := true)
    else
      var next := m.current + 1;
      m.(current := next, leveledUp := true, player := m.player.(pos := m.levels[next].start))
  }

  /** The loss check: sets `lost` once health is gone or hunger or thirst is
      at its maximum, and otherwise leaves it as it was. */
  function HasLost(m: Model, cfg: Config): (r: Model)
    ensures r == m.(lost := r.lost)
    ensures r.lost <==> m.lost || m.player.health <= 0
                        || m.player.hunger >= cfg.maxHunger || m.player.thirst >= cfg.maxThirst
  {
    var p := m.player;
    if p.health <= 0 || p.hunger >= cfg.maxHunger || p.thirst >= cfg.maxThirst then m.(lost := true)
    else m
  }

  /** Picks up the item at `pos`: it leaves the ground and joins the
      inventory, its effect is not applied, and the doors open if it was the
      last coin. */
  function AttemptCollectItem(m: Model, pos: Pos, cfg: Config): (r: Model)
    requires cfg.Valid() && Indexed(m)
    requires pos in Level(m).items
    ensures Indexed(r) && r.current == m.current && |r.levels| == |m.levels|
    ensures forall i | 0 <= i < |m.levels| && i != m.current :: r.levels[i] == m.levels[i]
    ensures r == m.(levels := r.levels, player := r.player)
    ensures r.player == m.player.(inventory := r.player.inventory)
    ensures r.player.inventory == Inventories.AddItem(m.player.inventory, Level(m).items[pos])
    ensures Inventories.Count(r.player.inventory, Items.Name(Level(m).items[pos].kind))
         == Inventories.Count(m.player.inventory, Items.Name(Level(m).items[pos].kind)) + 1
    ensures Level(r).items.Keys == Level(m).items.Keys - {pos}
    ensures forall p | p in Level(r).items :: Level(r).items[p] == Level(m).items[p]
    ensures Level(r).start == Level(m).start && Level(r).maze.tiles == Level(m).maze.tiles
    ensures Level(r).dims == Level(m).dims && Level(r).rowCount == Level(m).rowCount
    ensures Level(r).maze.dims == Level(m).maze.dims
    ensures Level(r).maze.doorsUnlocked <==> Level(m).maze.doorsUnlocked || !Levels.CoinLeft(Level(r).items)
    ensures Consistent(m, cfg) ==> Consistent(r, cfg)
  {
    var lv := Level(m);
    var picked := Players.AddItem(m.player, lv.items[pos]);
    var r := WithLevel(m.(player := picked), Levels.AttemptUnlockDoor(Levels.RemoveItem(lv, pos), cfg));
    assert Consistent(m, cfg) ==> Consistent(r, cfg) by {
      if Consistent(m, cfg) {
        assert Levels.Inv(Levels.RemoveItem(lv, pos), cfg);
      }
    }
    r
  }

  /** Every `TimeToChange`-th accepted move makes the player one step
      hungrier and thirstier and restarts the count. */
  function Tick(m: Model, cfg: Config): (r: Model)
    requires cfg.Valid()
    ensures m.validMoves != TimeToChange ==> r == m
    ensures m.validMoves == TimeToChange ==>
              && r.validMoves == 0
              && r.player.hunger == Clamp(m.player.hunger + 1, cfg.maxHunger)
              && r.player.thirst == Clamp(m.player.thirst + 1, cfg.maxThirst)
              && r.player == m.player.(hunger := r.player.hunger, thirst := r.player.thirst)
              && r == m.(player := r.player, validMoves := 0)
    ensures Consistent(m, cfg) && m.validMoves <= TimeToChange ==> Inv(r, cfg)
  {
    if m.validMoves == TimeToChange then
      m.(player := ChangeThirst(ChangeHunger(m.player, 1, cfg), 1, cfg), validMoves := 0)
    else m
  }

  function Target(pos: Pos, delta: Pos): Pos {
    (pos.0 + delta.0, pos.1 + delta.1)
  }

  /** The first part of an accepted move onto `target`, whose tile is `t`:
      the player moves there and pays one health plus the tile's damage,
      the move is counted, and the level's doors are checked. */
  function Enter(m: Model, target: Pos, t: Tile, cfg: Config): (r: Model)
    requires cfg.Valid() && Indexed(m)
    ensures Indexed(r) && r.current == m.current && |r.levels| == |m.levels|
    ensures forall i | 0 <= i < |m.levels| && i != m.current :: r.levels[i] == m.levels[i]
    ensures r.player.pos == Some(target)
    ensures r.player.health == Clamp(Clamp(m.player.health - 1, cfg.maxHealth) - Damage(t, cfg), cfg.maxHealth)
    ensures r.player == m.player.(pos := r.player.pos, health := r.player.health)
    ensures r.validMoves == m.validMoves + 1
    ensures Level(r) == Levels.AttemptUnlockDoor(Level(m), cfg)
    ensures r.won == m.won && r.lost == m.lost && r.leveledUp == m.leveledUp
    ensures Inv(m, cfg) ==> Consistent(r, cfg) && r.validMoves <= TimeToChange
  {
    var hurt := ChangeHealth(ChangeHealth(m.player.(pos := Some(target)), -1, cfg), -Damage(t, cfg), cfg);
    var r := WithLevel(m.(player := hurt, validMoves := m.validMoves + 1), Levels.AttemptUnlockDoor(Level(m), cfg));
    assert Inv(m, cfg) ==> Consistent(r, cfg) by {
      if Inv(m, cfg) {
        forall i | 0 <= i < |r.levels|
          ensures Levels.Inv(r.levels[i], cfg)
        {
          if i != m.current {
            assert r.levels[i] == m.levels[i];
          }
        }
      }
    }
    r
  }

  /** The second part of an accepted move: the item at the target, if any,
      is collected. */
  function Pickup(m: Model, target: Pos, cfg: Config): (r: Model)
    requires cfg.Valid() && Indexed(m)
    ensures Indexed(r) && r.current == m.current && |r.levels| == |m.levels|
    ensures r.validMoves == m.validMoves && r.won == m.won && r.lost == m.lost && r.leveledUp == m.leveledUp
    ensures r.player.pos == m.player.pos && r.player.health == m.player.health
    ensures r.player.hunger == m.player.hunger && r.player.thirst == m.player.thirst
    ensures target !in Level(m).items ==> r == m
    ensures target in Level(m).items ==> r == AttemptCollectItem(m, target, cfg)
    ensures forall i | 0 <= i < |m.levels| && i != m.current :: r.levels[i] == m.levels[i]
    ensures Consistent(m, cfg) ==> Consistent(r, cfg)
  {
    if target in Level(m).items then AttemptCollectItem(m, target, cfg) else m
  }

  /** An accepted move onto `target`, whose tile is `t`. */
  function Step(m: Model, target: Pos, t: Tile, cfg: Config): (r: Model)
    requires cfg.Valid() && Indexed(m)
    ensures Indexed(r) && r.current == m.current && |r.levels| == |m.levels|
    ensures forall i | 0 <= i < |m.levels| && i != m.current :: r.levels[i] == m.levels[i]
    ensures Inv(m, cfg) ==> Inv(r, cfg)
  {
    Tick(Pickup(Enter(m, target, t, cfg), target, cfg), cfg)
  }

  /** Resolves one move by `delta`. A target the maze cannot look up
      (outside it, or on a row the maze rejected) levels up; a blocking
      target changes nothing; otherwise the move is accepted. */
  function MovePlayer(m: Model, delta: Pos, cfg: Config): (r: Result<Model, MoveError>)
    requires cfg.Valid() && Indexed(m)
    ensures r.Err? <==> m.player.pos.None?
    ensures r.Ok? ==>
              && Indexed(r.value) && |r.value.levels| == |m.levels|
              && r.value.lost == m.lost
              && (m.won ==> r.value.won)
              && (m.leveledUp ==> r.value.leveledUp)
  {
    match m.player.pos
    case None => Err(NoPosition)
    case Some(cur) =>
      var target := Target(cur, delta);
      match Mazes.GetTile(Level(m).maze, target)
      case None => Ok(LevelUp(m))
      case Some(t) =>
        if Blocking(t, Level(m).maze.doorsUnlocked) then Ok(m)
        else Ok(Step(m, target, t, cfg))
  }
}

=== FILE: inventory.dfy ===
/** The player's inventory: item name to the items of that name, oldest
    first. */
module Inventories {
  import opened Basics
  import opened Items

  type Inventory = map<string, seq<Item>>

  /** The class invariant: a name is a key only while it holds an item, and
      every item sits under its own kind's name. */
  predicate Valid(inv: Inventory) {
    forall name | name in inv ::
      && |inv[name]| > 0
      && forall i | 0 <= i < |inv[name]| :: Name(inv[name][i].kind) == name
  }

  /** The items held under `name`, oldest first; none when it is no key. */
  function Held(inv: Inventory, name: string): seq<Item> {
    if name in inv then inv[name] else []
  }

  function Count(inv: Inventory, name: string): nat {
    |Held(inv, name)|
  }

  /** Stores `item` after every item already held under its name. */
  function AddItem(inv: Inventory, item: Item): (r: Inventory)
    ensures Name(item.kind) in r
    ensures Held(r, Name(item.kind)) == Held(inv, Name(item.kind)) + [item]
    ensures Count(r, Name(item.kind)) == Count(inv, Name(item.kind)) + 1
    ensures forall n | n != Name(item.kind) :: (n in r <==> n in inv) && Held(r, n) == Held(inv, n)
    ensures Valid(inv) ==> Valid(r)
  {
    var name := Name(item.kind);
    if name in inv then inv[name := inv[name] + [item]]
    else inv[name := [item]]
  }

  /** Takes out the oldest item held under `name`, dropping the key once
      nothing is left under it; an absent name gives None and no change. */
  function RemoveItem(inv: Inventory, name: string): (r: (Option<Item>, Inventory))
    requires name in inv ==> |inv[name]| > 0
    ensures name !in inv ==> r == (None, inv)
    ensures name in inv ==> r.0 == Some(inv[name][0])
    ensures name in inv ==> Held(inv, name) == [r.0.value] + Held(r.1, name)
    ensures name in inv ==> Count(r.1, name) == Count(inv, name) - 1
    ensures name in r.1 <==> Count(inv, name) > 1
    ensures forall n | n != name :: (n in r.1 <==> n in inv) && Held(r.1, n) == Held(inv, n)
    ensures Valid(inv) ==> Valid(r.1)
  {
    if name in inv then
      var rest := inv[name][1..];
      (Some(inv[name][0]), if |rest| == 0 then inv - {name} else inv[name := rest])
    else
      (None, inv)
  }

  /** Removing from a name just added to is first-in first-out: the item
      returned is the oldest one, and the new item stays behind it. */
  lemma AddThenRemove(inv: Inventory, x: Item)
    requires Valid(inv)
    ensures var name := Name(x.kind);
            RemoveItem(AddItem(inv, x), name)
            == if name in inv
               then (Some(inv[name][0]), AddItem(RemoveItem(inv, name).1, x))
               else (Some(x), inv)
  {
    var name := Name(x.kind);
    var after := AddItem(inv, x);
    var r := RemoveItem(after, name);
    if name in inv {
      var expected := AddItem(RemoveItem(inv, name).1, x);
      assert r.1.Keys == expected.Keys;
      forall n | n in r.1
        ensures r.1[n] == expected[n]
      {
        if n == name {
          assert (inv[name] + [x])[1..] == inv[name][1..] + [x];
        } else {
          assert Held(r.1, n) == Held(expected, n);
        }
      }
      assert r.1 == expected;
    } else {
      assert r.1 == after - {name};
      assert r.1 == inv;
    }
  }

  /** The items of `items` named `name`, in order. */
  function Filter(items: seq<Item>, name: string): seq<Item> {
    if |items| == 0 then []
    else
      var last := items[|items| - 1];
      Filter(items[..|items| - 1], name) + (if Name(last.kind) == name then [last] else [])
  }

  /** The inventory built from a list of initial items, added in order. */
  function FromItems(items: seq<Item>): (inv: Inventory)
    ensures Valid(inv)
    ensures forall n | n in inv :: |inv[n]| <= |items|
  {
    if |items| == 0 then map[]
    else AddItem(FromItems(items[..|items| - 1]), items[|items| - 1])
  }

  /** An inventory built by adding items one after another holds, under each
      name, exactly the added items of that name in the order they were
      added, and is valid. */
  lemma {:induction false} FromItemsIsFilter(items: seq<Item>)
    ensures Valid(FromItems(items))
    ensures forall n :: Held(FromItems(items), n) == Filter(items, n)
    ensures forall n :: n in FromItems(items) <==> |Filter(items, n)| > 0
  {
    if |items| > 0 {
      FromItemsIsFilter(items[..|items| - 1]);
    }
  }
}

=== FILE: items.dfy ===
/** Collectable items: their kinds, names and level-file characters. */
module Items {
  import opened Basics
  import opened Constants

  datatype Kind = Coin | Potion | Water | Apple | Honey

  /** An item and the position it was placed at in its level. */
  datatype Item = Item(kind: Kind, pos: Pos)

  /** The item's class name, which keys the inventory. */
  function Name(k: Kind): string {
    match k
    case Coin => "Coin"
    case Potion => "Potion"
    case Water => "Water"
    case Apple => "Apple"
    case Honey => "Honey"
  }

  /** The character the item is written as in a level file. */
  function Id(k: Kind, cfg: Config): char {
    match k
    case Coin => cfg.coin
    case Potion => cfg.potion
    case Water => cfg.water
    case Apple => cfg.apple
    case Honey => cfg.honey
  }

  /** The kind of item a level-file character places, if it places one. */
  function KindOfChar(c: char, cfg: Config): (r: Option<Kind>)
    requires cfg.Valid()
    ensures r.Some? <==> c in {cfg.potion, cfg.honey, cfg.apple, cfg.water, cfg.coin}
    ensures r.Some? ==> Id(r.value, cfg) == c
  {
    if c == cfg.potion then Some(Potion)
    else if c == cfg.honey then Some(Honey)
    else if c == cfg.apple then Some(Apple)
    else if c == cfg.water then Some(Water)
    else if c == cfg.coin then Some(Coin)
    else None
  }

  /** The kind a use command names, if the kind can be used: every kind but
      the coin. */
  function UsableKind(name: string): (r: Option<Kind>)
    ensures r.Some? <==> name in ["Water", "Honey", "Potion", "Apple"]
    ensures r.Some? ==> Name(r.value) == name && r.value != Coin
  {
    if name == "Water" then Some(Water)
    else if name == "Honey" then Some(Honey)
    else if name == "Potion" then Some(Potion)
    else if name == "Apple" then Some(Apple)
    else None
  }

  /** Reading back the character of a kind gives the kind. */
  lemma KindOfCharId(k: Kind, cfg: Config)
    requires cfg.Valid()
    ensures KindOfChar(Id(k, cfg), cfg) == Some(k)
  {
  }

  /** Distinct kinds have distinct names, so a name determines the kind. */
  lemma NameInjective(a: Kind, b: Kind)
    ensures Name(a) == Name(b) <==> a == b
  {
    if a != b {
      assert Name(a)[0] != Name(b)[0];
    }
  }
}

=== FILE: level.dfy ===
/** A level: its maze, the items still lying on the ground keyed by position,
    and where the player starts. */
module Levels {
  import opened Basics
  import opened Constants
  import opened Items
  import Mazes

  datatype Level = Level(
    dims: (int, int),
    items: map<Pos, Item>,
    rowCount: nat,
    start: Option<Pos>,
    maze: Mazes.Maze)

  function NewLevel(dims: (int, int)): (lv: Level)
    ensures lv.dims == dims && lv.items == map[] && lv.start.None? && lv.rowCount == 0
    ensures lv.maze == Mazes.NewMaze(dims)
  {
    Level(dims, map[], 0, None, Mazes.NewMaze(dims))
  }

  /** Whether the `c`-th character of a text row places an item. */
  predicate PlacesItem(row: string, c: int, cfg: Config)
    requires cfg.Valid()
  {
    0 <= c < |row| && KindOfChar(row[c], cfg).Some?
  }

  /** Places the item a character stands for at `pos`, replacing whatever
      item was there; other characters change nothing. */
  function AddEntity(lv: Level, pos: Pos, c: char, cfg: Config): (r: Level)
    requires cfg.Valid()
    ensures r == lv.(items := r.items)
    ensures KindOfChar(c, cfg).None? ==> r == lv
    ensures KindOfChar(c, cfg).Some? ==>
              && r.items.Keys == lv.items.Keys + {pos}
              && r.items[pos] == Item(KindOfChar(c, cfg).value, pos)
              && Id(r.items[pos].kind, cfg) == c
              && forall p | p in lv.items && p != pos :: r.items[p] == lv.items[p]
  {
    match KindOfChar(c, cfg)
    case None => lv
    case Some(k) => lv.(items := lv.items[pos := Item(k, pos)])
  }

  /** Records where the player starts, replacing any earlier start. */
  function AddPlayerStart(lv: Level, pos: Pos): (r: Level)
    ensures r.start == Some(pos) && r == lv.(start := r.start)
  {
    lv.(start := Some(pos))
  }

  /** Whether `p` is a position on row `rc` whose character, among the
      first `n` characters of `row`, places an item. */
  predicate PlacedBy(rc: int, row: string, n: int, p: Pos, cfg: Config)
    requires cfg.Valid()
  {
    p.0 == rc && p.1 < n && PlacesItem(row, p.1, cfg)
  }

  /** The entities of the first `n` characters of `row`, registered on row
      `lv.rowCount` from left to right. */
  function ScanRow(lv: Level, row: string, n: nat, cfg: Config): (r: Level)
    requires cfg.Valid()
    requires n <= |row|
    ensures r.dims == lv.dims && r.rowCount == lv.rowCount && r.maze == lv.maze
    decreases n
  {
    if n == 0 then lv
    else
      var before := ScanRow(lv, row, n - 1, cfg);
      var pos := (lv.rowCount, n - 1);
      var c := row[n - 1];
      if KindOfChar(c, cfg).Some? then AddEntity(before, pos, c, cfg)
      else if c == cfg.player then AddPlayerStart(before, pos)
      else before
  }

  /** Scanning registers exactly the item characters of the scanned prefix,
      each as an item of its kind at its own position, over whatever was
      there. */
  lemma {:induction false} ScanRowItems(lv: Level, row: string, n: nat, cfg: Config)
    requires cfg.Valid()
    requires n <= |row|
    ensures var r := ScanRow(lv, row, n, cfg);
            && (forall p :: p in r.items <==> p in lv.items || PlacedBy(lv.rowCount, row, n, p, cfg))
            && (forall p | p in r.items ::
                  r.items[p] == if PlacedBy(lv.rowCount, row, n, p, cfg)
                                then Item(KindOfChar(row[p.1], cfg).value, p)
                                else lv.items[p])
  {
    if n > 0 {
      ScanRowItems(lv, row, n - 1, cfg);
    }
  }

  /** Scanning leaves the start alone when the prefix has no player marker,
      and otherwise moves it to the last marker of the prefix. */
  lemma {:induction false} ScanRowStart(lv: Level, row: string, n: nat, cfg: Config)
    requires cfg.Valid()
    requires n <= |row|
    ensures var r := ScanRow(lv, row, n, cfg);
            && ((forall c | 0 <= c < n :: row[c] != cfg.player) ==> r.start == lv.start)
            && (r.start != lv.start ==>
                  && r.start.Some? && r.start.value.0 == lv.rowCount
                  && 0 <= r.start.value.1 < n && row[r.start.value.1] == cfg.player
                  && forall c | r.start.value.1 < c < n :: row[c] != cfg.player)
            && (n > 0 && row[n - 1] == cfg.player ==> r.start == Some((lv.rowCount, n - 1)))
            && (forall c | 0 <= c < n && row[c] == cfg.player ::
                  && r.start.Some? && r.start.value.0 == lv.rowCount
                  && c <= r.start.value.1 < n && row[r.start.value.1] == cfg.player
                  && forall c' | r.start.value.1 < c' < n :: row[c'] != cfg.player)
  {
    if n > 0 {
      ScanRowStart(lv, row, n - 1, cfg);
    }
  }

  /** Adds a text row: registers its items and player marker on the next row
      index, then hands the row to the maze. Entities are registered even
      when the maze rejects the row. */
  function AddRow(lv: Level, row: string, cfg: Config): (r: Level)
    requires cfg.Valid()
    ensures r.rowCount == lv.rowCount + 1 && r.dims == lv.dims
    ensures r.maze == Mazes.AddRow(lv.maze, row, cfg)
    ensures forall p :: p in r.items <==> p in lv.items || PlacedBy(lv.rowCount, row, |row|, p, cfg)
    ensures forall p | p in r.items ::
              r.items[p] == if PlacedBy(lv.rowCount, row, |row|, p, cfg)
                            then Item(KindOfChar(row[p.1], cfg).value, p)
                            else lv.items[p]
    ensures (forall c | 0 <= c < |row| :: row[c] != cfg.player) ==> r.start == lv.start
    ensures (exists c | 0 <= c < |row| :: row[c] == cfg.player) ==>
              && r.start.Some? && r.start.value.0 == lv.rowCount
              && 0 <= r.start.value.1 < |row| && row[r.start.value.1] == cfg.player
              && forall c | r.start.value.1 < c < |row| :: row[c] != cfg.player
  {
    ScanRowItems(lv, row, |row|, cfg);
    ScanRowStart(lv, row, |row|, cfg);
    var scanned := ScanRow(lv, row, |row|, cfg);
    scanned.(rowCount := scanned.rowCount + 1, maze := Mazes.AddRow(scanned.maze, row, cfg))
  }

  /** A level built from its declared dimensions and its rows, in order. */
  function Build(dims: (int, int), rows: seq<string>, cfg: Config): (lv: Level)
    requires cfg.Valid()
    ensures lv.dims == dims && lv.maze.dims == dims
    ensures lv.rowCount == |rows| && |lv.maze.tiles| == |rows| && |lv.maze.rendered| == |rows|
    ensures !lv.maze.doorsUnlocked
  {
    if |rows| == 0 then NewLevel(dims)
    else AddRow(Build(dims, rows[..|rows| - 1], cfg), rows[|rows| - 1], cfg)
  }

  /** Removes the item at `pos`, which must be there. */
  function RemoveItem(lv: Level, pos: Pos): (r: Level)
    requires pos in lv.items
    ensures r.items.Keys == lv.items.Keys - {pos}
    ensures forall p | p in r.items :: r.items[p] == lv.items[p]
    ensures r == lv.(items := r.items)
  {
    lv.(items := lv.items - {pos})
  }

  /** Whether a coin is still on the ground, judged by item characters as
      the level does. */
  predicate HasCoin(lv: Level, cfg: Config) {
    exists it | it in lv.items.Values :: Id(it.kind, cfg) == cfg.coin
  }

  /** Whether an item of kind Coin is still on the ground. */
  predicate CoinLeft(items: map<Pos, Item>) {
    exists p | p in items :: items[p].kind == Coin
  }

  /** The level's own coin test, by item character, agrees with the test by
      item kind. */
  lemma HasCoinIsCoinLeft(lv: Level, cfg: Config)
    requires cfg.Valid()
    ensures HasCoin(lv, cfg) <==> CoinLeft(lv.items)
  {
    if CoinLeft(lv.items) {
      var p :| p in lv.items && lv.items[p].kind == Coin;
      assert lv.items[p] in lv.items.Values;
    }
  }

  /** Unlocks the maze's doors when no coin is left, and otherwise changes
      nothing. */
  function AttemptUnlockDoor(lv: Level, cfg: Config): (r: Level)
    requires cfg.Valid()
    ensures r.items == lv.items && r.start == lv.start && r.dims == lv.dims && r.rowCount == lv.rowCount
    ensures r.maze.tiles == lv.maze.tiles && r.maze.dims == lv.maze.dims
    ensures CoinLeft(lv.items) ==> r == lv
    ensures r.maze.doorsUnlocked <==> lv.maze.doorsUnlocked || !CoinLeft(lv.items)
    ensures !CoinLeft(lv.items) ==>
              forall i | 0 <= i < |r.maze.rendered| :: cfg.door !in r.maze.rendered[i]
    ensures Inv(lv, cfg) ==> Inv(r, cfg)
  {
    HasCoinIsCoinLeft(lv, cfg);
    if !HasCoin(lv, cfg) then lv.(maze := Mazes.UnlockDoor(lv.maze, cfg)) else lv
  }

  /** Trying to unlock twice is trying once. */
  lemma AttemptUnlockDoorIdempotent(lv: Level, cfg: Config)
    requires cfg.Valid()
    ensures AttemptUnlockDoor(AttemptUnlockDoor(lv, cfg), cfg) == AttemptUnlockDoor(lv, cfg)
  {
    if !CoinLeft(lv.items) {
      Mazes.UnlockDoorIdempotent(lv.maze, cfg);
    }
  }

  /** What a level keeps true while it is played: its maze is consistent,
      its doors are open only once no coin is left, and every ground item is
      keyed by its own position. */
  predicate Inv(lv: Level, cfg: Config) {
    && Mazes.Inv(lv.maze, cfg)
    && (lv.maze.doorsUnlocked ==> !CoinLeft(lv.items))
    && forall p | p in lv.items :: lv.items[p].pos == p
  }

  /** A built level has one maze row per text row, its doors locked, and
      keeps the level invariant. */
  lemma {:induction false} BuildInv(dims: (int, int), rows: seq<string>, cfg: Config)
    requires cfg.Valid()
    ensures var lv := Build(dims, rows, cfg);
            && Inv(lv, cfg)
            && !lv.maze.doorsUnlocked
            && lv.rowCount == |rows| == |lv.maze.tiles|
            && lv.maze.dims == dims
  {
    if |rows| > 0 {
      BuildInv(dims, rows[..|rows| - 1], cfg);
    }
  }
}

=== FILE: maze.dfy ===
/** A maze: rows of tiles built one text row at a time, the rendered text of
    each row, and the one door state shared by all its door cells. */
module Mazes {
  import opened Basics
  import opened Constants
  import opened Tiles

  /** `dims` is (rows, columns) as declared; `tiles` and `rendered` grow by
      one entry per added row, whether or not the row was accepted. */
  datatype Maze = Maze(
    dims: (int, int),
    tiles: seq<seq<Tile>>,
    rendered: seq<string>,
    doorsUnlocked: bool)

  /** A maze with no rows yet and its door locked. */
  function NewMaze(dims: (int, int)): (m: Maze)
    ensures m.dims == dims && |m.tiles| == 0 && |m.rendered| == 0 && !m.doorsUnlocked
    ensures forall cfg: Config :: Inv(m, cfg)
  {
    Maze(dims, [], [], false)
  }

  /** The text of a row of tiles. */
  function RenderRow(row: seq<Tile>, unlocked: bool, cfg: Config): string {
    seq(|row|, i requires 0 <= i < |row| => Id(row[i], unlocked, cfg))
  }

  /** Each rendered row is the text of its tile row under the current door
      state. */
  predicate Inv(m: Maze, cfg: Config) {
    && |m.tiles| == |m.rendered|
    && forall i | 0 <= i < |m.tiles| :: m.rendered[i] == RenderRow(m.tiles[i], m.doorsUnlocked, cfg)
  }

  /** Whether the row-size check lets a row in. It compares the number of
      rows already present with `<=`, so one row beyond the declared count
      still gets in. */
  predicate Accepts(m: Maze, row: string) {
    |row| == m.dims.1 && |m.rendered| <= m.dims.0
  }

  /** Appends a row: its tiles and text when the row is accepted, and an
      empty tile row with empty text when it is not. */
  function AddRow(m: Maze, row: string, cfg: Config): (r: Maze)
    requires cfg.Valid()
    ensures r.dims == m.dims && r.doorsUnlocked == m.doorsUnlocked
    ensures |r.tiles| == |m.tiles| + 1 && r.tiles[..|m.tiles|] == m.tiles
    ensures |r.rendered| == |m.rendered| + 1 && r.rendered[..|m.rendered|] == m.rendered
    ensures |r.tiles[|m.tiles|]| == (if Accepts(m, row) then |row| else 0)
    ensures !Accepts(m, row) ==> r.rendered[|m.rendered|] == ""
    ensures Accepts(m, row) ==>
              forall c | 0 <= c < |row| ::
                var t := r.tiles[|m.tiles|][c];
                && (Blocking(t, m.doorsUnlocked) <==> row[c] == cfg.wall || (row[c] == cfg.door && !m.doorsUnlocked))
                && Damage(t, cfg) == (if row[c] == cfg.lava then cfg.lavaDamage else 0)
    ensures Accepts(m, row) && !m.doorsUnlocked ==>
              r.rendered[|m.rendered|]
              == seq(|row|, c requires 0 <= c < |row| =>
                       if row[c] in {cfg.wall, cfg.door, cfg.lava} then row[c] else cfg.empty)
    ensures Inv(m, cfg) ==> Inv(r, cfg)
  {
    if Accepts(m, row) then
      var ts := seq(|row|, c requires 0 <= c < |row| => OfChar(row[c], cfg));
      m.(tiles := m.tiles + [ts], rendered := m.rendered + [RenderRow(ts, m.doorsUnlocked, cfg)])
    else
      m.(tiles := m.tiles + [[]], rendered := m.rendered + [""])
  }

  /** The tile a position selects under Python list indexing: a negative
      row or column counts from the end, and any index outside the list,
      including every column of an empty row, is a failed lookup (None). */
  function GetTile(m: Maze, p: Pos): (r: Option<Tile>)
    ensures r.Some? <==>
              && 0 <= |m.tiles| + p.0 && p.0 < |m.tiles|
              && var row := m.tiles[if p.0 < 0 then |m.tiles| + p.0 else p.0];
                 0 <= |row| + p.1 && p.1 < |row|
    ensures r.Some? ==>
              var i := PyIndex(|m.tiles|, p.0).value;
              var j := PyIndex(|m.tiles[i]|, p.1).value;
              r.value == m.tiles[i][j]
  {
    match PyIndex(|m.tiles|, p.0)
    case None => None
    case Some(i) =>
      match PyIndex(|m.tiles[i]|, p.1)
      case None => None
      case Some(j) => Some(m.tiles[i][j])
  }

  /** Inside the grid a lookup returns the tile stored there. */
  lemma GetTileInside(m: Maze, p: Pos)
    requires 0 <= p.0 < |m.tiles| && 0 <= p.1 < |m.tiles[p.0]|
    ensures GetTile(m, p) == Some(m.tiles[p.0][p.1])
  {
  }

  /** A negative index counts from the end, for rows and for columns of
      every row: row `i - rows` is row `i`, and column `-j` of a row is its
      `j`-th column from the end. */
  lemma GetTileWraps(m: Maze, i: int, j: int)
    requires 0 <= i < |m.tiles|
    ensures GetTile(m, (i - |m.tiles|, j)) == GetTile(m, (i, j))
    ensures 0 < j <= |m.tiles[i]| ==> GetTile(m, (i, -j)) == Some(m.tiles[i][|m.tiles[i]| - j])
  {
  }

  /** Every character `a` of `s` replaced by `b`. */
  function Replace(s: string, a: char, b: char): string {
    seq(|s|, i requires 0 <= i < |s| => if s[i] == a then b else s[i])
  }

  /** Unlocks the maze's shared door, so every door cell stops blocking, and
      rewrites the door character to the floor character in every rendered
      row; the tiles themselves are untouched. */
  function UnlockDoor(m: Maze, cfg: Config): (r: Maze)
    requires cfg.Valid()
    ensures r.doorsUnlocked && r.dims == m.dims && r.tiles == m.tiles
    ensures forall i, j | 0 <= i < |r.tiles| && 0 <= j < |r.tiles[i]| ::
              !Blocking(r.tiles[i][j], r.doorsUnlocked) <==> !r.tiles[i][j].Wall?
    ensures |r.rendered| == |m.rendered|
    ensures forall i | 0 <= i < |r.rendered| ::
              && |r.rendered[i]| == |m.rendered[i]|
              && cfg.door !in r.rendered[i]
              && forall j | 0 <= j < |r.rendered[i]| && m.rendered[i][j] != cfg.door ::
                   r.rendered[i][j] == m.rendered[i][j]
    ensures Inv(m, cfg) ==> Inv(r, cfg)
  {
    var rows := seq(|m.rendered|, i requires 0 <= i < |m.rendered| =>
                      if cfg.door in m.rendered[i] then Replace(m.rendered[i], cfg.door, cfg.empty)
                      else m.rendered[i]);
    var r := m.(doorsUnlocked := true, rendered := rows);
    assert Inv(m, cfg) ==> Inv(r, cfg) by {
      if Inv(m, cfg) {
        forall i | 0 <= i < |r.tiles|
          ensures r.rendered[i] == RenderRow(r.tiles[i], true, cfg)
        {
          UnlockRendersRow(m.tiles[i], m.doorsUnlocked, cfg);
        }
      }
    }
    r
  }

  /** Replacing door characters in a rendered row gives the row's text with
      the doors unlocked. */
  lemma UnlockRendersRow(row: seq<Tile>, unlocked: bool, cfg: Config)
    requires cfg.Valid()
    ensures var s := RenderRow(row, unlocked, cfg);
            (if cfg.door in s then Replace(s, cfg.door, cfg.empty) else s) == RenderRow(row, true, cfg)
  {
    var s := RenderRow(row, unlocked, cfg);
    if cfg.door !in s {
      forall j | 0 <= j < |row|
        ensures s[j] == RenderRow(row, true, cfg)[j]
      {
        assert s[j] in s;
      }
    }
  }

  /** Unlocking twice is unlocking once. */
  lemma UnlockDoorIdempotent(m: Maze, cfg: Config)
    requires cfg.Valid()
    ensures UnlockDoor(UnlockDoor(m, cfg), cfg) == UnlockDoor(m, cfg)
  {
    var once := UnlockDoor(m, cfg);
    var twice := UnlockDoor(once, cfg);
    forall i | 0 <= i < |once.rendered|
      ensures twice.rendered[i] == once.rendered[i]
    {
    }
  }
}

=== FILE: player.dfy ===
/** The player: a position, three survival stats and an inventory. */
module Players {
  import opened Basics
  import opened Constants
  import opened Items
  import Inventories

  /** The position is absent when the level the player entered has no
      start marker. */
  datatype Player = Player(
    pos: Option<Pos>,
    health: int,
    hunger: int,
    thirst: int,
    inventory: Inventories.Inventory)

  predicate StatsInRange(p: Player, cfg: Config) {
    && 0 <= p.health <= cfg.maxHealth
    && 0 <= p.hunger <= cfg.maxHunger
    && 0 <= p.thirst <= cfg.maxThirst
  }

  /** A fresh player: full health, no hunger, no thirst, nothing held. */
  function NewPlayer(start: Option<Pos>, cfg: Config): (p: Player)
    requires cfg.Valid()
    ensures p.pos == start && p.inventory == map[]
    ensures StatsInRange(p, cfg) && Inventories.Valid(p.inventory)
    ensures p.health == cfg.maxHealth && p.hunger == 0 && p.thirst == 0
  {
    Player(start, cfg.maxHealth, 0, 0, map[])
  }

  /** Adds `amount` to hunger, clamped to [0, maxHunger]. */
  function ChangeHunger(p: Player, amount: int, cfg: Config): (r: Player)
    requires cfg.Valid()
    ensures 0 <= r.hunger <= cfg.maxHunger
    ensures r.hunger == Clamp(p.hunger + amount, cfg.maxHunger)
    ensures r == p.(hunger := r.hunger)
  {
    var h := p.hunger + amount;
    if h < 0 then p.(hunger := 0)
    else if h > cfg.maxHunger then p.(hunger := cfg.maxHunger)
    else p.(hunger := h)
  }

  /** Adds `amount` to thirst, clamped to [0, maxThirst]. */
  function ChangeThirst(p: Player, amount: int, cfg: Config): (r: Player)
    requires cfg.Valid()
    ensures 0 <= r.thirst <= cfg.maxThirst
    ensures r.thirst == Clamp(p.thirst + amount, cfg.maxThirst)
    ensures r == p.(thirst := r.thirst)
  {
    var t := p.thirst + amount;
    if t < 0 then p.(thirst := 0)
    else if t > cfg.maxThirst then p.(thirst := cfg.maxThirst)
    else p.(thirst := t)
  }

  /** Adds `amount` to health, clamped to [0, maxHealth]. The upper bound is
      tested first here, unlike the other two stats. */
  function ChangeHealth(p: Player, amount: int, cfg: Config): (r: Player)
    requires cfg.Valid()
    ensures 0 <= r.health <= cfg.maxHealth
    ensures r.health == Clamp(p.health + amount, cfg.maxHealth)
    ensures r == p.(health := r.health)
  {
    var h := p.health + amount;
    if h > cfg.maxHealth then p.(health := cfg.maxHealth)
    else if h < 0 then p.(health := 0)
    else p.(health := h)
  }

  /** Adds an item to the player's inventory. */
  function AddItem(p: Player, item: Item): (r: Player)
    ensures r == p.(inventory := r.inventory)
    ensures r.inventory == Inventories.AddItem(p.inventory, item)
    ensures Inventories.Count(r.inventory, Name(item.kind))
         == Inventories.Count(p.inventory, Name(item.kind)) + 1
    ensures Inventories.Valid(p.inventory) ==> Inventories.Valid(r.inventory)
  {
    p.(inventory := Inventories.AddItem(p.inventory, item))
  }

  /** The effect of using an item of kind `k`: one stat moves by the kind's
      amount (clamped), a coin does nothing, and nothing else changes. */
  function Apply(k: Kind, p: Player, cfg: Config): (r: Player)
    requires cfg.Valid()
    ensures r.pos == p.pos && r.inventory == p.inventory
    ensures k == Coin ==> r == p
    ensures r.health == (if k == Potion then Clamp(p.health + cfg.potionAmount, cfg.maxHealth) else p.health)
    ensures r.thirst == (if k == Water then Clamp(p.thirst + cfg.waterAmount, cfg.maxThirst) else p.thirst)
    ensures r.hunger == (if k == Apple then Clamp(p.hunger + cfg.appleAmount, cfg.maxHunger)
                         else if k == Honey then Clamp(p.hunger + cfg.honeyAmount, cfg.maxHunger)
                         else p.hunger)
    ensures StatsInRange(p, cfg) ==> StatsInRange(r, cfg)
  {
    match k
    case Potion => ChangeHealth(p, cfg.potionAmount, cfg)
    case Coin => p
    case Water => ChangeThirst(p, cfg.waterAmount, cfg)
    case Apple => ChangeHunger(p, cfg.appleAmount, cfg)
    case Honey => ChangeHunger(p, cfg.honeyAmount, cfg)
  }

  datatype UseOutcome = Used | Unavailable | NotUsable

  /** Using an item by exact name: a name that is no usable kind is
      `NotUsable`, a usable kind the player holds none of is `Unavailable`,
      and in both cases the player is unchanged; otherwise the kind's effect
      is applied and the oldest item of that name leaves the inventory. */
  function UseItem(p: Player, name: string, cfg: Config): (r: (UseOutcome, Player))
    requires cfg.Valid()
    requires name in p.inventory ==> |p.inventory[name]| > 0
    ensures r.0 == NotUsable <==> name !in ["Water", "Honey", "Potion", "Apple"]
    ensures r.0 == Unavailable <==> name in ["Water", "Honey", "Potion", "Apple"] && name !in p.inventory
    ensures r.0 != Used ==> r.1 == p
    ensures r.0 == Used ==>
              && Inventories.Count(r.1.inventory, name) == Inventories.Count(p.inventory, name) - 1
              && r.1.inventory == Inventories.RemoveItem(p.inventory, name).1
              && r.1.(inventory := p.inventory) == Apply(UsableKind(name).value, p, cfg)
    ensures StatsInRange(p, cfg) ==> StatsInRange(r.1, cfg)
    ensures Inventories.Valid(p.inventory) ==> Inventories.Valid(r.1.inventory)
  {
    match UsableKind(name)
    case None => (NotUsable, p)
    case Some(k) =>
      if name in p.inventory then
        var applied := Apply(k, p, cfg);
        (Used, applied.(inventory := Inventories.RemoveItem(applied.inventory, name).1))
      else
        (Unavailable, p)
  }
}

=== FILE: scenarios.dfy ===
/** Whole-game walk-throughs on small levels. */
module Scenarios {
  import opened Basics
  import opened Constants
  import opened Tiles
  import Items
  import Inventories
  import Mazes
  import Levels
  import opened Game
  import opened Turns

  /** The one-row level "player, coin, door". */
  function CoinDoorRow(cfg: Config): string {
    [cfg.player, cfg.coin, cfg.door]
  }

  /** Reading the one-row level puts the player at column 0, a coin at
      column 1 and a locked door at column 2. */
  lemma CoinDoorLevel(cfg: Config)
    requires cfg.Valid()
    ensures var lv := Levels.Build((1, 3), [CoinDoorRow(cfg)], cfg);
            && lv.start == Some((0, 0))
            && lv.items == map[(0, 1) := Items.Item(Items.Coin, (0, 1))]
            && lv.maze.tiles == [[Empty, Empty, Door]]
            && !lv.maze.doorsUnlocked
            && Levels.Inv(lv, cfg)
  {
    var row := CoinDoorRow(cfg);
    var lv := Levels.Build((1, 3), [row], cfg);
    assert [row][..0] == [];
    assert Levels.Build((1, 3), [row][..0], cfg) == Levels.NewLevel((1, 3));
    assert lv == Levels.AddRow(Levels.NewLevel((1, 3)), row, cfg);
    assert Mazes.Accepts(Mazes.NewMaze((1, 3)), row);
    var ts := lv.maze.tiles[0];
    assert |lv.maze.tiles| == 1 && |ts| == 3;
    assert ts[0] == Empty && ts[1] == Empty && ts[2] == Door;
    assert ts == [Empty, Empty, Door];
    assert lv.maze.tiles == [ts];
    Items.KindOfCharId(Items.Coin, cfg);
    assert lv.items.Keys == {(0, 1)} by {
      forall p | p in lv.items ensures p == (0, 1) {
        assert Levels.PlacedBy(0, row, 3, p, cfg);
      }
      assert Levels.PlacedBy(0, row, 3, (0, 1), cfg);
    }
    Levels.BuildInv((1, 3), [row], cfg);
  }

  /** On that level as the only one: the first step right picks up the coin,
      which opens the door without changing any stat but health; the second
      step goes onto the open door; the third leaves the grid and wins the
      game, with the player left on the door cell. */
  lemma CoinOpensDoorAndWins(cfg: Config)
    requires cfg.Valid()
    ensures var lv := Levels.Build((1, 3), [CoinDoorRow(cfg)], cfg);
            var start := NewModel([lv], cfg);
            && start.Ok?
            && var m1 := MovePlayer(start.value, (0, 1), cfg);
               && m1.Ok?
               && m1.value.player.pos == Some((0, 1))
               && m1.value.player.health == Max(0, cfg.maxHealth - 1)
               && m1.value.player.hunger == 0 && m1.value.player.thirst == 0
               && Inventories.Count(m1.value.player.inventory, "Coin") == 1
               && Level(m1.value).items == map[]
               && Level(m1.value).maze.doorsUnlocked
               && var m2 := MovePlayer(m1.value, (0, 1), cfg);
                  && m2.Ok?
                  && m2.value.player.pos == Some((0, 2))
                  && !m2.value.won
                  && var m3 := MovePlayer(m2.value, (0, 1), cfg);
                     && m3.Ok?
                     && m3.value.won
                     && m3.value.player.pos == Some((0, 2))
  {
    var lv := Levels.Build((1, 3), [CoinDoorRow(cfg)], cfg);
    CoinDoorLevel(cfg);
    var m0 := NewModel([lv], cfg).value;
    assert Inv(m0, cfg);

    // first step: onto the coin
    assert TargetTile(m0, (0, 1)) == Some(Empty);
    MoveAccepted(m0, (0, 1), cfg);
    MoveAcceptedPickup(m0, (0, 1), cfg);
    MovePreservesInv(m0, (0, 1), cfg);
    var m1 := MovePlayer(m0, (0, 1), cfg).value;
    assert Level(m1).items == map[];
    assert m1.player.inventory == Inventories.AddItem(map[], Items.Item(Items.Coin, (0, 1)));

    // second step: onto the open door
    assert Level(m1).maze.tiles == [[Empty, Empty, Door]];
    assert TargetTile(m1, (0, 1)) == Some(Door);
    MoveAccepted(m1, (0, 1), cfg);
    var m2 := MovePlayer(m1, (0, 1), cfg).value;

    // third step: off the grid, past the last level
    assert Level(m2).maze.tiles == [[Empty, Empty, Door]];
    assert TargetTile(m2, (0, 1)).None?;
    MoveOffGrid(m2, (0, 1), cfg);
  }

  /** The one-row level "player, floor, coin". */
  function FloorCoinRow(cfg: Config): string {
    [cfg.player, cfg.empty, cfg.coin]
  }

  /** On that level, a move left by one wraps to the last column, which is
      the coin's cell, and is accepted. The player is stored at the
      unnormalised (0, -1), which is not the coin's key, so the coin stays on
      the ground, the inventory stays empty and the doors stay locked. */
  lemma WrappedMoveMissesItem(cfg: Config)
    requires cfg.Valid()
    ensures var lv := Levels.Build((1, 3), [FloorCoinRow(cfg)], cfg);
            var start := NewModel([lv], cfg);
            && start.Ok?
            && var m1 := MovePlayer(start.value, (0, -1), cfg);
               && m1.Ok?
               && m1.value.player.pos == Some((0, -1))
               && (0, 2) in Level(m1.value).items
               && Level(m1.value).items[(0, 2)].kind == Items.Coin
               && m1.value.player.inventory == map[]
               && !Level(m1.value).maze.doorsUnlocked
  {
    var row := FloorCoinRow(cfg);
    var lv := Levels.Build((1, 3), [row], cfg);
    assert [row][..0] == [];
    assert Levels.Build((1, 3), [row][..0], cfg) == Levels.NewLevel((1, 3));
    assert lv == Levels.AddRow(Levels.NewLevel((1, 3)), row, cfg);
    assert Mazes.Accepts(Mazes.NewMaze((1, 3)), row);
    var ts := lv.maze.tiles[0];
    assert |lv.maze.tiles| == 1 && |ts| == 3;
    assert ts[2] == Empty;
    Items.KindOfCharId(Items.Coin, cfg);
    assert Levels.PlacedBy(0, row, 3, (0, 2), cfg);
    assert lv.items.Keys == {(0, 2)} by {
      forall p | p in lv.items ensures p == (0, 2) {
        assert Levels.PlacedBy(0, row, 3, p, cfg);
      }
    }
    assert lv.start == Some((0, 0));
    Levels.BuildInv((1, 3), [row], cfg);
    var m0 := NewModel([lv], cfg).value;
    assert Inv(m0, cfg);
    assert TargetTile(m0, (0, -1)) == Some(Empty);
    MoveAccepted(m0, (0, -1), cfg);
    MoveAcceptedPickup(m0, (0, -1), cfg);
  }

  /** The row-count check admits one row more than declared: a level
      declared with one row of three columns keeps both of two well-formed
      rows as full tile rows, while a row of the wrong width becomes an
      empty tile row. */
  lemma ExtraRowAccepted(cfg: Config, a: string, b: string, c: string)
    requires cfg.Valid()
    requires |a| == 3 && |b| == 3 && |c| == 2
    ensures var lv := Levels.Build((1, 3), [a, b, c], cfg);
            && |lv.maze.tiles| == 3 && |lv.maze.rendered| == 3
            && |lv.maze.tiles[0]| == 3 && |lv.maze.tiles[1]| == 3
            && lv.maze.tiles[2] == [] && lv.maze.rendered[2] == ""
  {
    var l0 := Levels.Build((1, 3), [], cfg);
    assert [a][..0] == [];
    var l1 := Levels.AddRow(l0, a, cfg);
    assert l1 == Levels.Build((1, 3), [a], cfg);
    assert [a, b][..1] == [a];
    var l2 := Levels.AddRow(l1, b, cfg);
    assert l2 == Levels.Build((1, 3), [a, b], cfg);
    assert [a, b, c][..2] == [a, b];
    var l3 := Levels.AddRow(l2, c, cfg);
    assert l3 == Levels.Build((1, 3), [a, b, c], cfg);
    assert |l2.maze.rendered| == 2;
    assert l3.maze.tiles[..2] == l2.maze.tiles;
  }
}

=== FILE: tiles.dfy ===
/** The terrain of one maze cell. A maze shares one door among all its door
    cells, so whether a door blocks is a property of the maze (`unlocked`),
    not of the cell. */
module Tiles {
  import opened Constants

  datatype Tile = Wall | Empty | Lava | Door

  /** Whether the player may not step onto the tile. */
  predicate Blocking(t: Tile, unlocked: bool)
    ensures t.Wall? ==> Blocking(t, unlocked)
    ensures Blocking(t, unlocked) ==> !t.Empty? && !t.Lava?
    ensures t.Door? ==> (Blocking(t, unlocked) <==> !unlocked)
  {
    t.Wall? || (t.Door? && !unlocked)
  }

  /** Health lost on entering the tile, on top of the cost of moving. */
  function Damage(t: Tile, cfg: Config): (d: int)
    ensures t.Lava? ==> d == cfg.lavaDamage
    ensures d != 0 ==> t.Lava?
    ensures cfg.Valid() ==> d >= 0
  {
    if t.Lava? then cfg.lavaDamage else 0
  }

  /** The character the tile renders as. */
  function Id(t: Tile, unlocked: bool, cfg: Config): (c: char)
    ensures t.Wall? ==> c == cfg.wall
    ensures t.Lava? ==> c == cfg.lava
    ensures cfg.Valid() ==> (c == cfg.door <==> t.Door? && !unlocked)
    ensures cfg.Valid() ==> (c == cfg.empty <==> t.Empty? || (t.Door? && unlocked))
  {
    match t
    case Wall => cfg.wall
    case Empty => cfg.empty
    case Lava => cfg.lava
    case Door => if unlocked then cfg.empty else cfg.door
  }

  /** The tile a level-file character stands for: anything that is not a
      wall, door or lava character is floor. */
  function OfChar(c: char, cfg: Config): (t: Tile)
    ensures cfg.Valid() ==> (t.Wall? <==> c == cfg.wall) && (t.Door? <==> c == cfg.door) && (t.Lava? <==> c == cfg.lava)
  {
    if c == cfg.wall then Wall
    else if c == cfg.door then Door
    else if c == cfg.lava then Lava
    else Empty
  }

  /** An unlocked door behaves exactly like floor. */
  lemma UnlockedDoorIsEmpty(cfg: Config)
    ensures !Blocking(Door, true) && !Blocking(Empty, true)
    ensures Damage(Door, cfg) == Damage(Empty, cfg) == 0
    ensures Id(Door, true, cfg) == Id(Empty, true, cfg) == cfg.empty
  {
  }

  /** Reading a character as a tile and rendering it gives the character back
      for walls, lava and locked doors, and the floor character otherwise;
      the tile blocks exactly for walls and locked doors and hurts exactly
      for lava. */
  lemma OfCharMeaning(c: char, unlocked: bool, cfg: Config)
    requires cfg.Valid()
    ensures Id(OfChar(c, cfg), false, cfg)
         == (if c == cfg.wall || c == cfg.door || c == cfg.lava then c else cfg.empty)
    ensures Blocking(OfChar(c, cfg), unlocked) <==> c == cfg.wall || (c == cfg.door && !unlocked)
    ensures Damage(OfChar(c, cfg), cfg) == (if c == cfg.lava then cfg.lavaDamage else 0)
  {
  }
}

=== FILE: turns.dfy ===
/** Properties of turn resolution: what a move does in each of its three
    cases, the state invariant it keeps, and the flags it never clears. */
module Turns {
  import opened Basics
  import opened Constants
  import opened Tiles
  import Inventories
  import opened Players
  import Mazes
  import Levels
  import opened Game

  /** The tile a move by `delta` would enter, if the maze can look it up. */
  function TargetTile(m: Model, delta: Pos): Option<Tile>
    requires Indexed(m) && m.player.pos.Some?
  {
    Mazes.GetTile(Level(m).maze, Target(m.player.pos.value, delta))
  }

  /** Moving onto a blocking tile changes nothing at all. */
  lemma MoveBlocked(m: Model, delta: Pos, cfg: Config)
    requires cfg.Valid() && Indexed(m) && m.player.pos.Some?
    requires TargetTile(m, delta).Some? && Blocking(TargetTile(m, delta).value, Level(m).maze.doorsUnlocked)
    ensures MovePlayer(m, delta, cfg) == Ok(m)
  {
  }

  /** A target the maze cannot look up levels up, and the player's stats,
      inventory, the ground items and the move count stay as they were. */
  lemma MoveOffGrid(m: Model, delta: Pos, cfg: Config)
    requires cfg.Valid() && Indexed(m) && m.player.pos.Some?
    requires TargetTile(m, delta).None?
    ensures MovePlayer(m, delta, cfg) == Ok(LevelUp(m))
    ensures var r := MovePlayer(m, delta, cfg).value;
            && r.player.health == m.player.health && r.player.hunger == m.player.hunger
            && r.player.thirst == m.player.thirst && r.player.inventory == m.player.inventory
            && r.levels == m.levels && r.validMoves == m.validMoves
            && (m.current == |m.levels| - 1 ==> r.won && r.player.pos == m.player.pos && r.current == m.current)
            && (m.current < |m.levels| - 1 ==> r.current == m.current + 1 && r.player.pos == m.levels[r.current].start)
  {
  }

  /** Two successive clamped changes of health, by -1 and then by minus a
      non-negative damage, are one clamped change by their sum. */
  lemma HealthCost(p: Player, d: int, cfg: Config)
    requires cfg.Valid() && 0 <= p.health <= cfg.maxHealth && d >= 0
    ensures ChangeHealth(ChangeHealth(p, -1, cfg), -d, cfg).health == Clamp(p.health - 1 - d, cfg.maxHealth)
    ensures ChangeHealth(ChangeHealth(p, -1, cfg), -d, cfg).health == Max(0, p.health - 1 - d)
  {
  }

  /** An accepted move puts the player on the target, costs one health plus
      the tile's damage (never below zero), counts the move, and on every
      fifth counted move raises hunger and thirst by one and restarts the
      count; the flags and the level index do not change. */
  lemma MoveAccepted(m: Model, delta: Pos, cfg: Config)
    requires cfg.Valid() && Inv(m, cfg) && m.player.pos.Some?
    requires TargetTile(m, delta).Some? && !Blocking(TargetTile(m, delta).value, Level(m).maze.doorsUnlocked)
    ensures MovePlayer(m, delta, cfg).Ok?
    ensures var r := MovePlayer(m, delta, cfg).value;
            var t := TargetTile(m, delta).value;
            var ticked := m.validMoves + 1 == TimeToChange;
            && r.player.pos == Some(Target(m.player.pos.value, delta))
            && r.player.health == Max(0, m.player.health - 1 - Damage(t, cfg))
            && r.validMoves == (if ticked then 0 else m.validMoves + 1)
            && r.player.hunger == (if ticked then Clamp(m.player.hunger + 1, cfg.maxHunger) else m.player.hunger)
            && r.player.thirst == (if ticked then Clamp(m.player.thirst + 1, cfg.maxThirst) else m.player.thirst)
            && r.current == m.current && r.won == m.won && r.lost == m.lost && r.leveledUp == m.leveledUp
            && |r.levels| == |m.levels|
            && (forall i | 0 <= i < |m.levels| && i != m.current :: r.levels[i] == m.levels[i])
  {
    var target := Target(m.player.pos.value, delta);
    var t := TargetTile(m, delta).value;
    HealthCost(m.player.(pos := Some(target)), Damage(t, cfg), cfg);
    assert MovePlayer(m, delta, cfg) == Ok(Step(m, target, t, cfg));
  }

  /** An accepted move onto a ground item picks it up: the item's position
      leaves the level's items and the item joins the inventory under its
      name; with no item there, items and inventory stay. Afterwards the
      level's doors are open exactly when no coin is left on its ground. */
  lemma MoveAcceptedPickup(m: Model, delta: Pos, cfg: Config)
    requires cfg.Valid() && Inv(m, cfg) && m.player.pos.Some?
    requires TargetTile(m, delta).Some? && !Blocking(TargetTile(m, delta).value, Level(m).maze.doorsUnlocked)
    ensures MovePlayer(m, delta, cfg).Ok?
    ensures var r := MovePlayer(m, delta, cfg).value;
            var target := Target(m.player.pos.value, delta);
            var items := Level(m).items;
            && Indexed(r) && r.current == m.current && |r.levels| == |m.levels|
            && (forall i | 0 <= i < |m.levels| && i != m.current :: r.levels[i] == m.levels[i])
            && Level(r).items.Keys == items.Keys - {target}
            && (forall p | p in Level(r).items :: Level(r).items[p] == items[p])
            && (target in items ==>
                  r.player.inventory == Inventories.AddItem(m.player.inventory, items[target]))
            && (target !in items ==> r.player.inventory == m.player.inventory)
            && (Level(r).maze.doorsUnlocked <==> !Levels.CoinLeft(Level(r).items))
  {
    var target := Target(m.player.pos.value, delta);
    var t := TargetTile(m, delta).value;
    assert MovePlayer(m, delta, cfg) == Ok(Step(m, target, t, cfg));
    var lv := Level(m);
    assert Levels.Inv(lv, cfg);
    if target in lv.items {
      var rest := lv.items - {target};
      assert Levels.CoinLeft(rest) ==> Levels.CoinLeft(lv.items) by {
        if Levels.CoinLeft(rest) {
          var p :| p in rest && rest[p].kind == Items.Coin;
          assert p in lv.items;
        }
      }
    }
  }

  /** Every move keeps the state invariant: stats in range, the move count
      below five, a valid inventory and consistent levels. */
  lemma MovePreservesInv(m: Model, delta: Pos, cfg: Config)
    requires cfg.Valid() && Inv(m, cfg)
    ensures MovePlayer(m, delta, cfg).Ok? ==> Inv(MovePlayer(m, delta, cfg).value, cfg)
  {
    if m.player.pos.Some? {
      var target := Target(m.player.pos.value, delta);
      match TargetTile(m, delta)
      case None =>
      case Some(t) =>
        if !Blocking(t, Level(m).maze.doorsUnlocked) {
          assert MovePlayer(m, delta, cfg) == Ok(Step(m, target, t, cfg));
        }
    }
  }

  /** One move command as the game loop runs it: the move, then the loss
      check. */
  function Turn(m: Model, delta: Pos, cfg: Config): (r: Result<Model, MoveError>)
    requires cfg.Valid() && Indexed(m)
    ensures r.Err? <==> m.player.pos.None?
    ensures r.Ok? ==>
              && Indexed(r.value)
              && (r.value.lost <==> (|| m.lost
                                     || r.value.player.health <= 0
                                     || r.value.player.hunger >= cfg.maxHunger
                                     || r.value.player.thirst >= cfg.maxThirst))
    ensures r.Ok? ==> (m.won ==> r.value.won) && (m.leveledUp ==> r.value.leveledUp)
    ensures r.Ok? && Inv(m, cfg) ==> Inv(r.value, cfg)
  {
    assert Inv(m, cfg) && MovePlayer(m, delta, cfg).Ok? ==> Inv(MovePlayer(m, delta, cfg).value, cfg) by {
      if Inv(m, cfg) {
        MovePreservesInv(m, delta, cfg);
      }
    }
    match MovePlayer(m, delta, cfg)
    case Err(e) => Err(e)
    case Ok(moved) => Ok(HasLost(moved, cfg))
  }

  /** A run of move commands as the game loop plays them: it stops at the
      first command that fails, and after the first turn that ends with the
      game lost or won. */
  function Play(m: Model, deltas: seq<Pos>, cfg: Config): (r: Result<Model, MoveError>)
    requires cfg.Valid() && Indexed(m)
    ensures |deltas| == 0 ==> r == Ok(m)
    ensures r.Ok? ==> Indexed(r.value) && |r.value.levels| == |m.levels|
    ensures |deltas| > 0 && m.player.pos.None? ==> r.Err?
    decreases |deltas|
  {
    if |deltas| == 0 then Ok(m)
    else
      match Turn(m, deltas[0], cfg)
      case Err(e) => Err(e)
      case Ok(next) => if next.lost || next.won then Ok(next) else Play(next, deltas[1..], cfg)
  }

  /** How a non-empty run begins: it succeeds only if its first turn does;
      a first turn that leaves the game lost or won ends the run with that
      turn's state; any other successful first turn hands the rest of the
      commands to the state it leaves. */
  lemma PlayFirstTurn(m: Model, deltas: seq<Pos>, cfg: Config)
    requires cfg.Valid() && Indexed(m) && |deltas| > 0
    ensures Play(m, deltas, cfg).Ok? ==> Turn(m, deltas[0], cfg).Ok?
    ensures var t := Turn(m, deltas[0], cfg);
            t.Ok? && (t.value.lost || t.value.won) ==> Play(m, deltas, cfg) == t
    ensures var t := Turn(m, deltas[0], cfg);
            t.Ok? && !t.value.lost && !t.value.won ==> Play(m, deltas, cfg) == Play(t.value, deltas[1..], cfg)
  {
  }

  /** Over any run of turns the state invariant holds throughout, and once
      set, `won`, `lost` and the level-up flag are never cleared. */
  lemma {:induction false} PlayKeepsInvAndFlags(m: Model, deltas: seq<Pos>, cfg: Config)
    requires cfg.Valid() && Inv(m, cfg)
    ensures var r := Play(m, deltas, cfg);
            r.Ok? ==>
              && Inv(r.value, cfg)
              && (m.won ==> r.value.won)
              && (m.lost ==> r.value.lost)
              && (m.leveledUp ==> r.value.leveledUp)
    decreases |deltas|
  {
    if |deltas| > 0 {
      match Turn(m, deltas[0], cfg)
      case Err(_) =>
      case Ok(next) =>
        if !next.lost && !next.won {
          PlayKeepsInvAndFlags(next, deltas[1..], cfg);
        }
    }
  }
}
